=== FILE: README.md ===
# Portfolio section renderer, in Dafny

This project models the client-side script of a single-page portfolio site
(`script.js`). When a navigation link is clicked, or once at startup for
`about`, the script fetches `content/<section>.json`. It renders the document
into an HTML fragment chosen by the section name, installs the fragment as the
content element's markup, and marks the clicked link as the only active one.

The model treats the network as input. A `Net` value maps a request URL to the
reply the script would see. Everything downstream is pure:

- `JsValues`: the scalar JavaScript values a JSON field can hold. It defines their
  conversion to text, as a template literal performs it, and their truthiness,
  as `||` tests it.
- `Payloads`: jobs, repositories, section documents, responses, the network.
- `Fragments`: a fragment as a sequence of tokens, one per template literal.
  `Html` flattens the tokens to the exact string the script builds, whitespace
  included.
- `Experience`, `Photos`, `Projects`: the three list renderers.
- `Sections`: the content path, the dispatch on the section name, and the
  error message that replaces the content when a load fails.
- `Navigation`: the active-link rule, a click, and the initial load.

Counts and positions are stated over tokens, not over the flattened string.
The script escapes nothing, so a job's own text may contain divider markup. A
count taken over the string would then be wrong. The lemmas that mention the
string say what it contains (`Contains`), not what it lacks.

Two details of `script.js` shape the dispatch:

- `script.js` has no `about` branch. So `about` falls to the default branch and
  shows `data.content` verbatim (`Sections.OtherSectionsVerbatim`).
- The default branch shows only `data.content`. It adds no title and no images.

## Model

| member | source | states |
|---|---|---|
| `Fragments.TokenHtml` | script.js:29-91 | the model of the template literals (lines 29-35, 42-52, 58, 60, 77-85 and 91), whitespace included: each token flattens to the exact text its template builds; what the texts contain is stated by `Experience.TemplateShowsFields`, `Photos.ItemShowsSource`, `Projects.CardShowsFields` and `Sections.ResumeIgnoresPayload` |
| `Fragments.JobPieces` | script.js:42-52 | the model of the job template, as the literal pieces between and around the four fields; `Experience.TemplateShowsFields` states that the result shows each field |
| `Fragments.PhotoPieces` | script.js:29-33 | the model of the photo-item template; `Photos.ItemShowsSource` states that it shows the `photos/<name>` source |
| `Fragments.CardPieces` | script.js:77-85 | the model of the repository-card template; `Projects.CardShowsFields` states that it shows all five card texts |
| `Experience.Item` | script.js:42-52 | the model of one job's template item: it starts with the job's block, ends with the closing gap, and contains a divider exactly when the job is not the last |
| `Experience.Render` | script.js:42-52 | the model of the `jobs.map(...).join('')` fragment: 3n - 1 tokens for n > 0 jobs, none for no jobs, opening with the first job's block and ending with a gap; `Experience.Layout`, `Experience.DividerCount` and `Experience.RenderShowsEveryJob` state the rest |
| `Experience.DividerCount` | script.js:42-52 | N jobs give exactly N - 1 dividers; no jobs give an empty fragment |
| `Experience.Layout` | script.js:42-52 | the fragment equals an independent position-by-position layout: job i's block at 3i, a divider after every block but the last, a closing gap after every block |
| `Experience.BlocksInOrder` | script.js:42-50 | there is one block per job, in input order: job i's block is at position 3i |
| `Experience.DividersSitBetweenJobs` | script.js:51 | every divider is preceded by job i's block and followed, after the gap, by job i+1's block; the fragment never ends on a divider |
| `Experience.BlockShowsFields` | script.js:43-50 | a job block's markup shows the job's role, title, dates and description |
| `Experience.TemplateShowsFields` | script.js:42-50 | the job template's text, for any four field strings, contains each of them |
| `Experience.RenderShowsEveryJob` | script.js:42-52 | the experience markup shows every job's four fields |
| `Photos.Items` | script.js:29-33 | the model of `data.photos.map(...).join('')`: one item per photo; `Photos.Layout` states which item sits where |
| `Photos.Render` | script.js:28-36 | the model of `displayPhotos`: the items between one opening grid token and one closing token; `Photos.Layout` and `Photos.HtmlIsWrapped` state the rest |
| `Photos.Layout` | script.js:29-35 | one photo item per entry, in order, inside exactly one `photo-grid` container that opens first and closes last |
| `Photos.ItemShowsSource` | script.js:30-32 | a photo item's image source is `photos/` followed by the photo's name |
| `Photos.RenderShowsEverySource` | script.js:29-35 | the grid markup carries the `photos/<name>` source of every entry |
| `Photos.HtmlIsWrapped` | script.js:33-35 | the grid markup is the joined items inside one `<div class="photo-grid">` element |
| `Projects.Slice` | script.js:90 | `slice(0, 6)` keeps the first min(6, n) repositories unchanged and in order |
| `Projects.CreateRepoCard` | script.js:76-86 | a falsy description or language (absent, null, false, 0 or empty) shows the fallback text; any truthy value shows as its own text, a non-empty string unchanged; name, stars and link shown as given |
| `Projects.FallbackExactly` | script.js:80-81 | the fallback text shows exactly when the field is falsy or already equals that text, in both directions |
| `Projects.Layout` | script.js:88-92 | the container holds exactly one card for each of the first min(6, n) repositories, in the order of the reply |
| `Projects.Cards` | script.js:90 | the model of `.map(createRepoCard).join('')`: one card per repository; `Projects.Layout` states which card sits where |
| `Projects.Render` | script.js:88-92 | the model of `displayProjects` once the reply is in: at most six cards between one opening container token and one closing token; `Projects.Layout` and `Projects.LaterReposIgnored` state the rest |
| `Projects.LaterReposIgnored` | script.js:90 | repositories after the sixth never change the fragment |
| `Projects.CardShowsFields` | script.js:77-85 | a card's markup shows the name, description text, language text, star count and link |
| `JsValues.Decimal` | script.js:82 | a star count (an integer JavaScript holds exactly) is shown as a non-empty digit string without leading zeros |
| `JsValues.DecimalRoundTrip` | script.js:82 | the digits shown for a star count read back as that count |
| `Sections.ContentPath` | script.js:16 | the requested path is `content/` + section + `.json`, and the section can be read back from it |
| `Sections.ReposUrl` | script.js:72 | the repository request names the user between the API prefix and the sorted-by-update query |
| `Sections.Render` | script.js:38-64 | the model of `updateContent`'s dispatch: `experience`, `photos` and `projects` give exactly their own renderer's fragment of the document's array or the repository reply; `resume` always gives the iframe; it fails exactly for a null document, a missing `jobs` or `photos` array, or a repository reply that is not an array, and a null document fails as a type error; `Sections.OtherSectionsVerbatim` states the default branch |
| `Sections.Load` | script.js:14-21 | the model of `loadContent` up to the assignment: a non-ok response fails as not found, an unparsable body as malformed JSON, and otherwise the outcome is the section's render of the document |
| `Sections.LoadContent` | script.js:14-26 | the model of the content element after `loadContent`: a non-ok response leaves the error message, and a successful load leaves the rendered markup; `Sections.LoadOutcome` states every case |
| `Sections.ResumeIgnoresPayload` | script.js:57-58 | `resume` always renders the same iframe, whatever the payload |
| `Sections.OtherSectionsVerbatim` | script.js:59-61 | every other section name, `about` included, shows the payload's `content` verbatim; a null document throws |
| `Sections.RenderFailsExactly` | script.js:38-61 | rendering fails exactly for a null document, a missing `jobs` or `photos` array, or a repository reply that is not an array; `resume` never fails |
| `Sections.TokensMatchSection` | script.js:41-61 | a rendered fragment holds only the tokens its section's renderer emits |
| `Sections.LoadOutcome` | script.js:14-26 | a non-ok response, an unparsable body or a render error leaves exactly `<p>Error loading content.</p>`; otherwise the rendered markup |
| `Sections.LoadReadsOnlyItsPath` | script.js:16-21 | the content depends on the network only through the answer for the section's own path and the answers to repository-list requests; any other URL's answer is irrelevant |
| `Navigation.Deactivate` | script.js:67 | every link loses the active mark and keeps its section |
| `Navigation.Activate` | script.js:66-69 | afterwards link k is active and every other link inactive, sections unchanged |
| `Navigation.ActivateLeavesOneActive` | script.js:66-69 | exactly one link is active after marking |
| `Navigation.ActivateIdempotent` | script.js:66-69 | marking the same link twice equals marking it once |
| `Navigation.ActivateForgetsPrevious` | script.js:67-68 | the previous active flags do not influence the result |
| `Navigation.FirstLink` | script.js:96 | the selector finds the first link naming the section, or none when no link names it |
| `Navigation.Click` | script.js:6-11 | the model of the click handler: the content becomes the clicked section's load, the links keep their sections, and only the clicked link is active; `Navigation.ClickMarksClickedLink` and `Navigation.SecondClickMovesMarker` state the counts |
| `Navigation.Startup` | script.js:94-97 | the model of the initial load: the content becomes the `about` load, the links keep their sections, and only a link naming `about` can be active; `Navigation.StartupMarksAbout` states which one |
| `Navigation.ClickMarksClickedLink` | script.js:6-11 | a click shows the clicked section's load, even an error, and leaves only the clicked link active |
| `Navigation.ClickReplacesContent` | script.js:63 | the content after a click does not depend on the content before it: the markup is replaced whole, never merged |
| `Navigation.SecondClickMovesMarker` | script.js:6-11 | after a second click the first link is no longer active and only the second is |
| `Navigation.StartupMarksAbout` | script.js:95-97 | startup shows `about` and marks only the first `about` link; with no such link, no link is active |

## Left out

- The `fetch` calls for `content/*.json` and the GitHub API are network I/O. `Net` stands in for them as a pure function from URL to reply.
- The `console.error('Error:', error)` call in the catch block (script.js:24) is console output, so the model drops it. The caught error's kind survives only as the `Fault` that `Sections.Load` returns.
- A rejected content `fetch` (a network failure) has no form of its own. It is represented as a non-ok `Response`, so it yields the `NotFound` fault; the content shown is the same error message either way.
- DOM plumbing is left out: element lookup, `innerHTML`, `classList`, listener wiring and `preventDefault`. The model keeps only the content string and the links' active flags. Reading markup back through `innerHTML`, which would normalise it, is not modelled.
- A click whose event target is a child element of the link is left out. The section attribute would then be read from that child. The model reads the section from the link itself.
- Async ordering is left out, including the last-writer-wins race between overlapping loads. Each load and click is modelled as completing before the next begins.
- The promise rejection that `updateActiveLink(null)` raises at startup, when no `about` link exists, is left out. Only the state it leaves behind is modelled: no link is active.
- JSON field values that are objects, arrays or non-integral numbers are left out. `Value` covers undefined, null, booleans, integers and strings.
- JsValues.Decimal: numbers are limited to the integers JavaScript holds exactly, |n| <= 2^53 - 1. Larger integers get rounded, and from 10^21 JavaScript prints them in exponent form (`1e+21`); neither is modelled.
- JsValues.DecimalRoundTrip: the round trip holds for every natural number, but it matches JavaScript's display only within the safe range that `Num` holds.
- The script escapes no HTML, and the model claims no sanitisation.
- A job or repository entry that is `null` inside its array is left out. The script would throw on it; the model's job and repository entries are always objects. A `null` photo entry is covered: it renders as `photos/null`.
- webpack.config.js is build configuration with no logic. It is not part of this model.
- `script.js` has no weather, time, country-selector or translation code, so the model has none.

=== FILE: experience.dfy ===
/**
 * The experience renderer: each job of the `jobs` array becomes a job block,
 * followed by a divider unless it is the last job, followed by the closing
 * whitespace of its template; the items are joined with nothing between them.
 */
module Experience {
  import opened JsValues
  import opened Payloads
  import opened Fragments

  /** The job block of one job: its four fields as the template shows them. */
  function Block(job: Job): Token {
    JobBlock(ToText(job.role), ToText(job.title), ToText(job.dates), ToText(job.description))
  }

  /** The template item for the job at `index`: the divider slot is filled unless it is the last. */
  function Item(jobs: seq<Job>, index: nat): (t: seq<Token>)
    requires index < |jobs|
    ensures 2 <= |t| <= 3
    ensures t[0] == Block(jobs[index]) && t[|t| - 1] == JobGap
    ensures Divider in t <==> index < |jobs| - 1
  {
    [Block(jobs[index])] + (if index < |jobs| - 1 then [Divider] else []) + [JobGap]
  }

  /** The items of the first `n` jobs, joined. */
  function ItemsUpTo(jobs: seq<Job>, n: nat): seq<Token>
    requires n <= |jobs|
  {
    if n == 0 then [] else ItemsUpTo(jobs, n - 1) + Item(jobs, n - 1)
  }

  /** The experience fragment: every job's item, in the order of the array. */
  function Render(jobs: seq<Job>): (t: seq<Token>)
    ensures |t| == ExpectedLength(|jobs|)
    ensures |jobs| > 0 ==> t[0] == Block(jobs[0]) && t[|t| - 1] == JobGap
  {
    ItemsUpToLayout(jobs, |jobs|);
    ItemsUpTo(jobs, |jobs|)
  }

  /** The length of the fragment for `n` jobs: three tokens per job, less the missing last divider. */
  function ExpectedLength(n: nat): nat {
    if n == 0 then 0 else 3 * n - 1
  }

  /**
   * An independent description of the token at position `p`: position 3i holds
   * job i's block, 3i + 1 a divider when job i is not the last, and every other
   * position the closing gap.
   */
  function Expected(jobs: seq<Job>, p: nat): Token
    requires p / 3 < |jobs|
  {
    if p % 3 == 0 then Block(jobs[p / 3])
    else if p % 3 == 1 && p / 3 < |jobs| - 1 then Divider
    else JobGap
  }

  /** One item holds a divider exactly when its job is not the last. */
  lemma ItemDividers(jobs: seq<Job>, index: nat)
    requires index < |jobs|
    ensures Occurrences(Item(jobs, index), Divider) == if index < |jobs| - 1 then 1 else 0
  {
    var block := [Block(jobs[index])];
    if index < |jobs| - 1 {
      assert Item(jobs, index) == block + ([Divider] + [JobGap]);
      OccurrencesAppend(block, [Divider] + [JobGap], Divider);
      OccurrencesAppend([Divider], [JobGap], Divider);
    } else {
      assert Item(jobs, index) == block + [JobGap];
      OccurrencesAppend(block, [JobGap], Divider);
    }
  }

  lemma {:induction false} ItemsUpToDividers(jobs: seq<Job>, n: nat)
    requires n <= |jobs|
    ensures n < |jobs| ==> Occurrences(ItemsUpTo(jobs, n), Divider) == n
    ensures 0 < n == |jobs| ==> Occurrences(ItemsUpTo(jobs, n), Divider) == n - 1
  {
    if n > 0 {
      var prefix, item := ItemsUpTo(jobs, n - 1), Item(jobs, n - 1);
      assert ItemsUpTo(jobs, n) == prefix + item;
      ItemsUpToDividers(jobs, n - 1);
      assert Occurrences(prefix, Divider) == n - 1;
      OccurrencesAppend(prefix, item, Divider);
      ItemDividers(jobs, n - 1);
    }
  }

  /** N jobs give N - 1 dividers, and no jobs give an empty fragment. */
  lemma DividerCount(jobs: seq<Job>)
    ensures Occurrences(Render(jobs), Divider) == if |jobs| == 0 then 0 else |jobs| - 1
    ensures |jobs| == 0 ==> Render(jobs) == []
  {
    ItemsUpToDividers(jobs, |jobs|);
  }

  lemma {:induction false} ItemsUpToLayout(jobs: seq<Job>, n: nat)
    requires n <= |jobs|
    ensures |ItemsUpTo(jobs, n)| == if n == |jobs| then ExpectedLength(n) else 3 * n
    ensures forall p :: 0 <= p < |ItemsUpTo(jobs, n)| ==> p / 3 < |jobs| && ItemsUpTo(jobs, n)[p] == Expected(jobs, p)
  {
    if n > 0 {
      var prefix, item := ItemsUpTo(jobs, n - 1), Item(jobs, n - 1);
      var t := prefix + item;
      ItemsUpToLayout(jobs, n - 1);
      assert |prefix| == 3 * (n - 1);
      forall p | 0 <= p < |t|
        ensures p / 3 < |jobs| && t[p] == Expected(jobs, p)
      {
        if p < |prefix| {
          assert t[p] == prefix[p];
        } else {
          var k := p - 3 * (n - 1);
          assert p / 3 == n - 1 && p % 3 == k;
          assert t[p] == item[k];
        }
      }
    }
  }

  /**
   * The fragment is exactly the reference layout: job i's block at 3i, each
   * block but the last followed by a divider, every block followed by its gap.
   */
  lemma Layout(jobs: seq<Job>)
    ensures |Render(jobs)| == ExpectedLength(|jobs|)
    ensures forall p :: 0 <= p < |Render(jobs)| ==> p / 3 < |jobs| && Render(jobs)[p] == Expected(jobs, p)
  {
    ItemsUpToLayout(jobs, |jobs|);
  }

  /** Job i's block is at position 3i, so the blocks keep the order of the input. */
  lemma BlocksInOrder(jobs: seq<Job>)
    ensures forall i :: 0 <= i < |jobs| ==> 3 * i < |Render(jobs)| && Render(jobs)[3 * i] == Block(jobs[i])
  {
    var t := Render(jobs);
    Layout(jobs);
    forall i | 0 <= i < |jobs|
      ensures 3 * i < |t| && t[3 * i] == Block(jobs[i])
    {
      assert (3 * i) / 3 == i && (3 * i) % 3 == 0;
      assert t[3 * i] == Expected(jobs, 3 * i);
    }
  }

  /**
   * Every divider sits between the blocks of two consecutive jobs, so there is
   * never a leading or a trailing one, and the fragment ends with a gap.
   */
  lemma DividersSitBetweenJobs(jobs: seq<Job>)
    ensures forall p :: 0 <= p < |Render(jobs)| && Render(jobs)[p] == Divider ==>
      1 <= p && p + 2 < |Render(jobs)| && p / 3 + 1 < |jobs| &&
      Render(jobs)[p - 1] == Block(jobs[p / 3]) && Render(jobs)[p + 2] == Block(jobs[p / 3 + 1])
    ensures |jobs| > 0 ==> Render(jobs)[|Render(jobs)| - 1] == JobGap
  {
    var t := Render(jobs);
    Layout(jobs);
    forall p | 0 <= p < |t| && t[p] == Divider
      ensures 1 <= p && p + 2 < |t| && p / 3 + 1 < |jobs|
      ensures t[p - 1] == Block(jobs[p / 3]) && t[p + 2] == Block(jobs[p / 3 + 1])
    {
      DividerNeighbours(jobs, t, p);
    }
    if |jobs| > 0 {
      var last := |t| - 1;
      assert last == 3 * (|jobs| - 1) + 1;
      assert last % 3 == 1 && last / 3 == |jobs| - 1;
      assert t[last] == Expected(jobs, last);
    }
  }

  lemma DividerNeighbours(jobs: seq<Job>, t: seq<Token>, p: nat)
    requires |t| == ExpectedLength(|jobs|)
    requires forall q :: 0 <= q < |t| ==> q / 3 < |jobs| && t[q] == Expected(jobs, q)
    requires p < |t| && t[p] == Divider
    ensures 1 <= p && p + 2 < |t| && p / 3 + 1 < |jobs|
    ensures t[p - 1] == Block(jobs[p / 3]) && t[p + 2] == Block(jobs[p / 3 + 1])
  {
    assert t[p] == Expected(jobs, p);
    var i := p / 3;
    assert p % 3 == 1 && i < |jobs| - 1;
    assert p == 3 * i + 1;
    assert (p - 1) / 3 == i && (p - 1) % 3 == 0;
    assert (p + 2) / 3 == i + 1 && (p + 2) % 3 == 0;
    assert t[p - 1] == Expected(jobs, p - 1);
    assert t[p + 2] == Expected(jobs, p + 2);
  }

  /** A job's block shows its role, title, dates and description. */
  lemma BlockShowsFields(job: Job)
    ensures Contains(TokenHtml(Block(job)), ToText(job.role))
    ensures Contains(TokenHtml(Block(job)), ToText(job.title))
    ensures Contains(TokenHtml(Block(job)), ToText(job.dates))
    ensures Contains(TokenHtml(Block(job)), ToText(job.description))
  {
    var role, title, dates, description := ToText(job.role), ToText(job.title), ToText(job.dates), ToText(job.description);
    assert TokenHtml(Block(job)) == Concat(JobPieces(role, title, dates, description));
    TemplateShowsFields(role, title, dates, description);
  }

  /** The job template shows whatever four field texts it is given. */
  lemma TemplateShowsFields(role: string, title: string, dates: string, description: string)
    ensures var html := Concat(JobPieces(role, title, dates, description));
      Contains(html, role) && Contains(html, title) && Contains(html, dates) && Contains(html, description)
  {
    var pieces := JobPieces(role, title, dates, description);
    assert pieces[3] == role && pieces[6] == title && pieces[9] == dates && pieces[13] == description;
    ConcatShowsPiece(pieces, 3);
    ConcatShowsPiece(pieces, 6);
    ConcatShowsPiece(pieces, 9);
    ConcatShowsPiece(pieces, 13);
  }

  /** Every job's four fields appear in the experience fragment's HTML. */
  lemma RenderShowsEveryJob(jobs: seq<Job>, i: nat)
    requires i < |jobs|
    ensures Contains(Html(Render(jobs)), ToText(jobs[i].role))
    ensures Contains(Html(Render(jobs)), ToText(jobs[i].title))
    ensures Contains(Html(Render(jobs)), ToText(jobs[i].dates))
    ensures Contains(Html(Render(jobs)), ToText(jobs[i].description))
  {
    var t := Render(jobs);
    BlocksInOrder(jobs);
    HtmlShowsToken(t, 3 * i);
    BlockShowsFields(jobs[i]);
    var b := TokenHtml(Block(jobs[i]));
    ContainsTransitive(Html(t), b, ToText(jobs[i].role));
    ContainsTransitive(Html(t), b, ToText(jobs[i].title));
    ContainsTransitive(Html(t), b, ToText(jobs[i].dates));
    ContainsTransitive(Html(t), b, ToText(jobs[i].description));
  }
}

=== FILE: fragments.dfy ===
/**
 * An HTML fragment as the renderer builds it: a sequence of tokens, one per
 * template literal the script emits, and the flattening that turns the tokens
 * back into the exact string assigned to the content element.
 */
module Fragments {

  /** The two wrapper elements the script opens around a list of items. */
  datatype Container = PhotoGrid | RepoContainer

  /** The text a repository card displays, after the fallbacks are applied. */
  datatype Card = Card(name: string, description: string, language: string,
                       stars: string, url: string)

  datatype Token =
    | JobBlock(role: string, title: string, dates: string, description: string)
    | Divider
    | JobGap        // the whitespace that closes each job's template, after the divider slot
    | Open(container: Container)
    | Close
    | PhotoItem(name: string)
    | RepoCard(card: Card)
    | ResumeFrame
    | Markup(text: string)

  function Spaces(n: nat): string {
    seq(n, _ => ' ')
  }

  /** A new line of template text at the given indentation. */
  function Line(indent: nat, text: string): string {
    "\n" + Spaces(indent) + text
  }

  function ContainerClass(c: Container): string {
    match c
    case PhotoGrid => "photo-grid"
    case RepoContainer => "repo-container"
  }

  /** The pieces of a template literal joined in order. */
  function Concat(pieces: seq<string>): string {
    if pieces == [] then "" else pieces[0] + Concat(pieces[1..])
  }

  /** The image source a photo item points at. */
  function PhotoSrc(name: string): string {
    "photos/" + name
  }

  /** The pieces of a job block's template; the fields are at 3, 6, 9 and 13. */
  function JobPieces(role: string, title: string, dates: string, description: string): seq<string> {
    [ Line(16, "<div class=\"job\">"),
      Line(20, "<div class=\"job-header\">"),
      Line(24, "<div class=\"job-role\"><strong>"), role, "</strong></div>",
      Line(24, "<div class=\"job-title\">"), title, "</div>",
      Line(24, "<div class=\"job-dates\">"), dates, "</div>",
      Line(20, "</div>"),
      Line(20, "<p class=\"job-description\">"), description, "</p>",
      Line(16, "</div>"),
      Line(16, "") ]
  }

  /** The pieces of a photo item's template; the `src` attribute is at 2. */
  function PhotoPieces(name: string): seq<string> {
    [ Line(12, "<div class=\"photo-item\">"),
      Line(16, "<img "), "src=\"" + PhotoSrc(name) + "\"", " alt=\"Photo\">",
      Line(12, "</div>"),
      Line(8, "") ]
  }

  /** The pieces of a repository card's template; the fields are at 2, 5, 8, 11 and 14. */
  function CardPieces(c: Card): seq<string> {
    [ Line(12, "<div class=\"repo-card\">"),
      Line(16, "<h3>"), c.name, "</h3>",
      Line(16, "<p>"), c.description, "</p>",
      Line(16, "<p>Language: "), c.language, "</p>",
      Line(16, "<p>Stars: "), c.stars, "</p>",
      Line(16, "<a href=\""), c.url, "\" target=\"_blank\">View on GitHub</a>",
      Line(12, "</div>"),
      Line(8, "") ]
  }

  /** The exact text of each token, whitespace included, as in the template literals. */
  function TokenHtml(t: Token): string {
    match t
    case JobBlock(role, title, dates, description) => Concat(JobPieces(role, title, dates, description))
    case Divider => "<div class=\"job-divider\"></div>"
    case JobGap => Line(12, "")
    case Open(c) => "<div class=\"" + ContainerClass(c) + "\">"
    case Close => "</div>"
    case PhotoItem(name) => Concat(PhotoPieces(name))
    case RepoCard(c) => Concat(CardPieces(c))
    case ResumeFrame => "<iframe src=\"resume.pdf\" width=\"100%\" height=\"600px\"></iframe>"
    case Markup(text) => text
  }

  /** The texts of the tokens joined with nothing between them, as `map(...).join('')` does. */
  function Join(ts: seq<Token>, text: Token -> string): string {
    if ts == [] then "" else text(ts[0]) + Join(ts[1..], text)
  }

  /** The fragment as one string. */
  function Html(ts: seq<Token>): string {
    Join(ts, TokenHtml)
  }

  /** How many times `t` occurs in `ts`. */
  function Occurrences(ts: seq<Token>, t: Token): nat {
    if ts == [] then 0 else (if ts[0] == t then 1 else 0) + Occurrences(ts[1..], t)
  }

  /** `x` occurs in `s` starting at position `i`. */
  ghost predicate OccursAt(s: string, x: string, i: int) {
    0 <= i <= |s| - |x| && s[i..i + |x|] == x
  }

  /** `x` occurs in `s` as a contiguous substring. */
  ghost predicate Contains(s: string, x: string) {
    exists i :: OccursAt(s, x, i)
  }

  /** Flattening distributes over concatenation of fragments. */
  lemma HtmlAppend(a: seq<Token>, b: seq<Token>)
    ensures Html(a + b) == Html(a) + Html(b)
  {
    JoinAppend(a, b, TokenHtml);
  }

  lemma {:induction false} JoinAppend(a: seq<Token>, b: seq<Token>, text: Token -> string)
    ensures Join(a + b, text) == Join(a, text) + Join(b, text)
    decreases |a|
  {
    if a == [] {
      assert a + b == b;
    } else {
      assert (a + b)[1..] == a[1..] + b;
      JoinAppend(a[1..], b, text);
    }
  }

  /** Counting distributes over concatenation of fragments. */
  lemma {:induction false} OccurrencesAppend(a: seq<Token>, b: seq<Token>, t: Token)
    ensures Occurrences(a + b, t) == Occurrences(a, t) + Occurrences(b, t)
    decreases |a|
  {
    if a == [] {
      assert a + b == b;
    } else {
      assert (a + b)[1..] == a[1..] + b;
      OccurrencesAppend(a[1..], b, t);
    }
  }

  lemma OccurrencesSingle(x: Token, t: Token)
    ensures Occurrences([x], t) == if x == t then 1 else 0
  {
    assert [x][1..] == [];
  }

  lemma ContainsMiddle(a: string, x: string, b: string)
    ensures Contains(a + x + b, x)
  {
    var s := a + x + b;
    assert s[|a|..|a| + |x|] == x;
    assert OccursAt(s, x, |a|);
  }

  lemma ContainsTransitive(s: string, m: string, x: string)
    requires Contains(s, m) && Contains(m, x)
    ensures Contains(s, x)
  {
    var i :| OccursAt(s, m, i);
    var j :| OccursAt(m, x, j);
    forall k | 0 <= k < |x|
      ensures s[i + j + k] == x[k]
    {
      assert x[k] == m[j + k] == s[i..i + |m|][j + k];
    }
    assert s[i + j..i + j + |x|] == x;
    assert OccursAt(s, x, i + j);
  }

  /** The text of every token of a fragment appears in the fragment's string. */
  lemma HtmlShowsToken(ts: seq<Token>, p: nat)
    requires p < |ts|
    ensures Contains(Html(ts), TokenHtml(ts[p]))
  {
    JoinSplit(ts, p, TokenHtml);
    ContainsMiddle(Html(ts[..p]), TokenHtml(ts[p]), Html(ts[p + 1..]));
  }

  lemma {:induction false} JoinSplit(ts: seq<Token>, p: nat, text: Token -> string)
    requires p < |ts|
    ensures Join(ts, text) == Join(ts[..p], text) + text(ts[p]) + Join(ts[p + 1..], text)
    decreases p
  {
    var first, rest := text(ts[0]), ts[1..];
    if p == 0 {
      assert ts[..0] == [];
      assert rest == ts[p + 1..];
    } else {
      JoinSplit(rest, p - 1, text);
      assert rest[p - 1] == ts[p] && rest[p..] == ts[p + 1..];
      assert ts[..p][1..] == rest[..p - 1];
      assert Join(ts[..p], text) == first + Join(rest[..p - 1], text);
    }
  }

  lemma HtmlCons(t: Token, ts: seq<Token>)
    ensures Html([t] + ts) == TokenHtml(t) + Html(ts)
  {
    assert ([t] + ts)[1..] == ts;
  }

  /** Every piece of a template shows in the joined text. */
  lemma {:induction false} ConcatShowsPiece(pieces: seq<string>, k: nat)
    requires k < |pieces|
    ensures Contains(Concat(pieces), pieces[k])
    decreases k
  {
    var rest := Concat(pieces[1..]);
    assert Concat(pieces) == "" + pieces[0] + rest;
    if k == 0 {
      ContainsMiddle("", pieces[0], rest);
    } else {
      ConcatShowsPiece(pieces[1..], k - 1);
      assert Concat(pieces) == pieces[0] + rest + "";
      ContainsMiddle(pieces[0], rest, "");
      ContainsTransitive(Concat(pieces), rest, pieces[k]);
    }
  }
}

=== FILE: js_values.dfy ===
/**
 * The scalar JavaScript values a JSON payload hands to the templates, and the two
 * operations the templates apply to them: conversion to a string (what `${v}` and
 * `'' + v` produce) and truthiness (what `a || b` tests).
 */
module JsValues {

  /** The largest integer a JavaScript number holds exactly, 2^53 - 1. */
  const MaxSafeInteger: int := 0x1F_FFFF_FFFF_FFFF

  /**
   * The integers a JavaScript number holds exactly. Below 10^21 JavaScript
   * prints them as plain decimal digits, which is what `ToText` produces.
   */
  type SafeInteger = n: int | -MaxSafeInteger <= n <= MaxSafeInteger

  /** A scalar field as JavaScript sees it; `Undefined` is a field the object lacks. */
  datatype Value = Undefined | Null | Bool(b: bool) | Num(n: SafeInteger) | Str(s: string)

  /** JavaScript truthiness: `undefined`, `null`, `false`, `0` and `""` are falsy. */
  predicate Truthy(v: Value) {
    match v
    case Undefined => false
    case Null => false
    case Bool(b) => b
    case Num(n) => n != 0
    case Str(s) => s != ""
  }

  /** `a || b`: the left operand when it is truthy, the right one otherwise. */
  function Or(a: Value, b: Value): Value {
    if Truthy(a) then a else b
  }

  /** The string JavaScript substitutes for `v` in a template literal. */
  function ToText(v: Value): string {
    match v
    case Undefined => "undefined"
    case Null => "null"
    case Bool(b) => if b then "true" else "false"
    case Num(n) => if n < 0 then "-" + Decimal(-n) else Decimal(n)
    case Str(s) => s
  }

  predicate IsDigit(c: char) {
    '0' <= c <= '9'
  }

  function DigitChar(d: nat): (c: char)
    requires d < 10
    ensures IsDigit(c)
  {
    (48 + d) as char
  }

  function DigitValue(c: char): nat
    requires IsDigit(c)
  {
    c as int - '0' as int
  }

  /** The decimal numeral of `n`, without leading zeros. */
  function Decimal(n: nat): (r: string)
    ensures 0 < |r|
    ensures forall i :: 0 <= i < |r| ==> IsDigit(r[i])
    ensures n == 0 || r[0] != '0'
    decreases n
  {
    if n < 10 then [DigitChar(n)] else Decimal(n / 10) + [DigitChar(n % 10)]
  }

  /** Reads a string of decimal digits back as a number. */
  function DecimalValue(s: string): nat
    requires forall i :: 0 <= i < |s| ==> IsDigit(s[i])
  {
    if s == [] then 0 else DecimalValue(s[..|s| - 1]) * 10 + DigitValue(s[|s| - 1])
  }

  /** A number's numeral reads back as that number. */
  lemma {:induction false} DecimalRoundTrip(n: nat)
    ensures DecimalValue(Decimal(n)) == n
    decreases n
  {
    if n >= 10 {
      var r := Decimal(n);
      assert r[..|r| - 1] == Decimal(n / 10);
      DecimalRoundTrip(n / 10);
    }
  }
}

=== FILE: navigation.dfy ===
/**
 * The navigation: the links that carry a section name, the rule that keeps one
 * of them active, and the two entry points that load a section — a click on a
 * link and the initial load of `about`.
 */
module Navigation {
  import opened Results
  import opened Payloads
  import Sections

  /** A navigation link: the section it names and whether it carries the `active` class. */
  datatype Link = Link(section: string, active: bool)

  /** The state the script changes: the content element's markup and the links. */
  datatype Page = Page(content: string, links: seq<Link>)

  /** `links.forEach(link => link.classList.remove('active'))`. */
  function Deactivate(links: seq<Link>): (r: seq<Link>)
    ensures |r| == |links|
    ensures forall i :: 0 <= i < |links| ==> r[i] == Link(links[i].section, false)
  {
    if links == [] then [] else [Link(links[0].section, false)] + Deactivate(links[1..])
  }

  /** `updateActiveLink`: clear every link, then mark link `k`. */
  function Activate(links: seq<Link>, k: nat): (r: seq<Link>)
    requires k < |links|
    ensures |r| == |links|
    ensures forall i :: 0 <= i < |links| ==> r[i].section == links[i].section
    ensures forall i :: 0 <= i < |links| ==> (r[i].active <==> i == k)
  {
    Deactivate(links)[k := Link(links[k].section, true)]
  }

  /** How many links are marked active. */
  function ActiveCount(links: seq<Link>): nat {
    if links == [] then 0 else (if links[0].active then 1 else 0) + ActiveCount(links[1..])
  }

  lemma {:induction false} NoneActive(links: seq<Link>)
    requires forall i :: 0 <= i < |links| ==> !links[i].active
    ensures ActiveCount(links) == 0
    decreases |links|
  {
    if links != [] {
      NoneActive(links[1..]);
    }
  }

  lemma {:induction false} OnlyOneActive(links: seq<Link>, k: nat)
    requires k < |links|
    requires forall i :: 0 <= i < |links| ==> (links[i].active <==> i == k)
    ensures ActiveCount(links) == 1
    decreases |links|
  {
    if k == 0 {
      NoneActive(links[1..]);
    } else {
      OnlyOneActive(links[1..], k - 1);
    }
  }

  /** After `updateActiveLink(k)` exactly one link is active, and it is link `k`. */
  lemma ActivateLeavesOneActive(links: seq<Link>, k: nat)
    requires k < |links|
    ensures ActiveCount(Activate(links, k)) == 1
    ensures Activate(links, k)[k].active
  {
    OnlyOneActive(Activate(links, k), k);
  }

  /** Marking the same link twice is the same as marking it once. */
  lemma ActivateIdempotent(links: seq<Link>, k: nat)
    requires k < |links|
    ensures Activate(Activate(links, k), k) == Activate(links, k)
  {
  }

  /** The previous flags do not matter: links naming the same sections end up alike. */
  lemma ActivateForgetsPrevious(a: seq<Link>, b: seq<Link>, k: nat)
    requires |a| == |b| && k < |a|
    requires forall i :: 0 <= i < |a| ==> a[i].section == b[i].section
    ensures Activate(a, k) == Activate(b, k)
  {
  }

  /** `document.querySelector('nav a[data-section="…"]')`: the first link naming the section. */
  function FirstLink(links: seq<Link>, section: string): (r: Option<nat>)
    ensures r.Some? ==> r.value < |links| && links[r.value].section == section
    ensures r.Some? ==> forall j :: 0 <= j < r.value ==> links[j].section != section
    ensures r.None? ==> forall j :: 0 <= j < |links| ==> links[j].section != section
  {
    if links == [] then None
    else if links[0].section == section then Some(0)
    else
      match FirstLink(links[1..], section)
      case None => None
      case Some(j) => Some(j + 1)
  }

  /** A click on link `k`: load its section, then mark it the active link. */
  function Click(page: Page, k: nat, net: Net): (r: Page)
    requires k < |page.links|
    ensures r.content == Sections.LoadContent(page.links[k].section, net)
    ensures |r.links| == |page.links|
    ensures forall i :: 0 <= i < |page.links| ==> r.links[i].section == page.links[i].section
    ensures forall i :: 0 <= i < |page.links| ==> (r.links[i].active <==> i == k)
  {
    Page(Sections.LoadContent(page.links[k].section, net), Activate(page.links, k))
  }

  /**
   * The initial load: load `about`, then mark the first `about` link. With no
   * such link, `updateActiveLink(null)` has already cleared every link before
   * it throws, so none stays active.
   */
  function Startup(links: seq<Link>, net: Net): (r: Page)
    ensures r.content == Sections.LoadContent("about", net)
    ensures |r.links| == |links|
    ensures forall i :: 0 <= i < |links| ==> r.links[i].section == links[i].section
    ensures forall i :: 0 <= i < |links| && r.links[i].active ==> links[i].section == "about"
  {
    var content := Sections.LoadContent("about", net);
    match FirstLink(links, "about")
    case Some(k) => Page(content, Activate(links, k))
    case None => Page(content, Deactivate(links))
  }

  /**
   * A click replaces the content with the clicked section's load, whether it
   * succeeded or fell back to the error message, and leaves the clicked link
   * as the only active one.
   */
  lemma ClickMarksClickedLink(page: Page, k: nat, net: Net)
    requires k < |page.links|
    ensures Click(page, k, net).content == Sections.LoadContent(page.links[k].section, net)
    ensures |Click(page, k, net).links| == |page.links|
    ensures forall i :: 0 <= i < |page.links| ==> (Click(page, k, net).links[i].active <==> i == k)
    ensures ActiveCount(Click(page, k, net).links) == 1
  {
    ActivateLeavesOneActive(page.links, k);
  }

  /** The previous content never shows through: a click replaces the markup entirely. */
  lemma ClickReplacesContent(c1: string, c2: string, links: seq<Link>, k: nat, net: Net)
    requires k < |links|
    ensures Click(Page(c1, links), k, net) == Click(Page(c2, links), k, net)
  {
  }

  /** Clicking a second link moves the marker: the first loses it, only the second has it. */
  lemma SecondClickMovesMarker(page: Page, j: nat, k: nat, n1: Net, n2: Net)
    requires j < |page.links| && k < |page.links|
    ensures var after := Click(Click(page, j, n1), k, n2);
      && (j != k ==> !after.links[j].active)
      && after.links[k].active
      && ActiveCount(after.links) == 1
  {
    ActivateLeavesOneActive(Click(page, j, n1).links, k);
  }

  /**
   * After the initial load the content is the `about` section's, and the first
   * `about` link is the only active one; with no `about` link none is active.
   */
  lemma StartupMarksAbout(links: seq<Link>, net: Net)
    ensures Startup(links, net).content == Sections.LoadContent("about", net)
    ensures |Startup(links, net).links| == |links|
    ensures (exists i :: 0 <= i < |links| && links[i].section == "about") ==>
      ActiveCount(Startup(links, net).links) == 1
      && forall i :: 0 <= i < |links| ==>
           (Startup(links, net).links[i].active <==>
              links[i].section == "about" && forall j :: 0 <= j < i ==> links[j].section != "about")
    ensures (forall i :: 0 <= i < |links| ==> links[i].section != "about") ==>
      ActiveCount(Startup(links, net).links) == 0
  {
    match FirstLink(links, "about")
    case Some(k) =>
      ActivateLeavesOneActive(links, k);
    case None =>
      NoneActive(Deactivate(links));
  }
}

=== FILE: payloads.dfy ===
/**
 * The inputs of the section renderer: the JSON documents served under
 * `content/`, the repository list returned by the GitHub API, and the network
 * that produces both, treated as a pure function from URL to reply.
 */
module Payloads {
  import opened Results
  import opened JsValues

  /** One entry of the experience document's `jobs` array. */
  datatype Job = Job(role: Value, title: Value, dates: Value, description: Value)

  /** One repository object from the GitHub API; only the fields the card reads. */
  datatype Repo = Repo(name: Value, description: Value, language: Value,
                       stargazersCount: Value, htmlUrl: Value)

  /**
   * A section document. `jobs` and `photos` are `None` when the field is absent
   * or not an array, since calling `.map` on it then throws a TypeError.
   */
  datatype Payload = Payload(jobs: Option<seq<Job>>, photos: Option<seq<Value>>,
                             content: Value, githubUsername: Value)

  /**
   * What `response.json()` resolves to. A top-level `null` makes every field
   * access throw; any other value reads its fields like an object.
   */
  datatype Document = JsonNull | Object(data: Payload)

  /** A response to a content request; `json` is `None` when the body does not parse. */
  datatype Response = Response(ok: bool, json: Option<Document>)

  /**
   * The network, as the script sees it. `github` maps a request URL to the
   * repository array, or to `None` when the request rejects, the body does not
   * parse, or the parsed body is not an array (an error object has no `slice`).
   */
  datatype Net = Net(content: string -> Response, github: string -> Option<seq<Repo>>)
}

=== FILE: photos.dfy ===
/**
 * The photo grid: each entry of the `photos` array becomes one photo item whose
 * image source is the entry under `photos/`, and the joined items are wrapped
 * in a single grid container.
 */
module Photos {
  import opened JsValues
  import opened Fragments

  function Item(photo: Value): Token {
    PhotoItem(ToText(photo))
  }

  /** `photos.map(...)`, joined with nothing between the items. */
  function Items(photos: seq<Value>): (r: seq<Token>)
    ensures |r| == |photos|
  {
    if photos == [] then [] else [Item(photos[0])] + Items(photos[1..])
  }

  /** The grid container around one item per photo. */
  function Render(photos: seq<Value>): (r: seq<Token>)
    ensures |r| == |photos| + 2
    ensures r[0] == Open(PhotoGrid) && r[|r| - 1] == Close
  {
    [Open(PhotoGrid)] + Items(photos) + [Close]
  }

  lemma {:induction false} ItemsLayout(photos: seq<Value>)
    ensures |Items(photos)| == |photos|
    ensures forall i :: 0 <= i < |photos| ==> Items(photos)[i] == PhotoItem(ToText(photos[i]))
    ensures Occurrences(Items(photos), Open(PhotoGrid)) == 0
    decreases |photos|
  {
    if photos != [] {
      var rest := Items(photos[1..]);
      ItemsLayout(photos[1..]);
      OccurrencesAppend([Item(photos[0])], rest, Open(PhotoGrid));
      OccurrencesSingle(Item(photos[0]), Open(PhotoGrid));
      forall i | 0 < i < |photos|
        ensures Items(photos)[i] == PhotoItem(ToText(photos[i]))
      {
        assert Items(photos)[i] == rest[i - 1];
        assert photos[1..][i - 1] == photos[i];
      }
    }
  }

  /**
   * The grid holds one item per photo, in order, each showing that photo's name,
   * inside exactly one grid container that opens first and closes last.
   */
  lemma Layout(photos: seq<Value>)
    ensures |Render(photos)| == |photos| + 2
    ensures Render(photos)[0] == Open(PhotoGrid)
    ensures Render(photos)[|photos| + 1] == Close
    ensures forall i :: 0 <= i < |photos| ==> Render(photos)[i + 1] == PhotoItem(ToText(photos[i]))
    ensures Occurrences(Render(photos), Open(PhotoGrid)) == 1
  {
    var items := Items(photos);
    ItemsLayout(photos);
    OccurrencesAppend([Open(PhotoGrid)] + items, [Close], Open(PhotoGrid));
    OccurrencesAppend([Open(PhotoGrid)], items, Open(PhotoGrid));
    OccurrencesSingle(Open(PhotoGrid), Open(PhotoGrid));
    OccurrencesSingle(Close, Open(PhotoGrid));
  }

  /** A photo item's image points at the photo under `photos/`. */
  lemma ItemShowsSource(photo: Value)
    ensures Contains(TokenHtml(Item(photo)), "src=\"" + PhotoSrc(ToText(photo)) + "\"")
  {
    var pieces := PhotoPieces(ToText(photo));
    assert TokenHtml(Item(photo)) == Concat(pieces);
    ConcatShowsPiece(pieces, 2);
  }

  /** The grid's HTML carries the image source of every photo. */
  lemma RenderShowsEverySource(photos: seq<Value>, i: nat)
    requires i < |photos|
    ensures Contains(Html(Render(photos)), "src=\"" + PhotoSrc(ToText(photos[i])) + "\"")
  {
    var t := Render(photos);
    Layout(photos);
    HtmlShowsToken(t, i + 1);
    ItemShowsSource(photos[i]);
    ContainsTransitive(Html(t), TokenHtml(Item(photos[i])), "src=\"" + PhotoSrc(ToText(photos[i])) + "\"");
  }

  /** The grid's HTML is the joined items inside one `photo-grid` element. */
  lemma HtmlIsWrapped(photos: seq<Value>)
    ensures Html(Render(photos)) == "<div class=\"photo-grid\">" + Html(Items(photos)) + "</div>"
  {
    var items := Items(photos);
    HtmlAppend([Open(PhotoGrid)] + items, [Close]);
    HtmlCons(Open(PhotoGrid), items);
    var open := TokenHtml(Open(PhotoGrid));
    assert open == "<div class=\"photo-grid\">";
    HtmlCons(Close, []);
    assert Html([Close]) == "</div>";
  }
}

=== FILE: projects.dfy ===
/**
 * The repository cards: the first six repositories of the GitHub reply become
 * cards, in the order the reply lists them, each with fallback text for a
 * missing description or language, wrapped in one repository container.
 */
module Projects {
  import opened JsValues
  import opened Payloads
  import opened Fragments

  /** The number of repositories shown: the `slice(0, 6)`. */
  const MaxCards: nat := 6

  const NoDescription: string := "No description available."
  const NoLanguage: string := "Not specified"

  /** `s.slice(0, k)`: the first `k` elements, or all of them when there are fewer. */
  function Slice<T>(s: seq<T>, k: nat): (r: seq<T>)
    ensures |r| == if |s| < k then |s| else k
    ensures forall i :: 0 <= i < |r| ==> r[i] == s[i]
  {
    if |s| <= k then s else s[..k]
  }

  /**
   * The card of one repository. An absent, null or empty description or language
   * shows the fallback text, since `||` treats them all as false; any other
   * string shows unchanged, and any other truthy value shows as its text.
   */
  function CreateRepoCard(repo: Repo): (c: Card)
    ensures c.name == ToText(repo.name)
    ensures repo.description in {Undefined, Null, Str("")} ==> c.description == NoDescription
    ensures repo.description.Str? && repo.description.s != "" ==> c.description == repo.description.s
    ensures repo.language in {Undefined, Null, Str("")} ==> c.language == NoLanguage
    ensures repo.language.Str? && repo.language.s != "" ==> c.language == repo.language.s
    ensures Truthy(repo.description) ==> c.description == ToText(repo.description)
    ensures !Truthy(repo.description) ==> c.description == NoDescription
    ensures Truthy(repo.language) ==> c.language == ToText(repo.language)
    ensures !Truthy(repo.language) ==> c.language == NoLanguage
    ensures c.stars == ToText(repo.stargazersCount)
    ensures c.url == ToText(repo.htmlUrl)
  {
    Card(ToText(repo.name),
         ToText(Or(repo.description, Str(NoDescription))),
         ToText(Or(repo.language, Str(NoLanguage))),
         ToText(repo.stargazersCount),
         ToText(repo.htmlUrl))
  }

  /** `repos.map(createRepoCard)`, joined with nothing between the cards. */
  function Cards(repos: seq<Repo>): (r: seq<Token>)
    ensures |r| == |repos|
  {
    if repos == [] then [] else [RepoCard(CreateRepoCard(repos[0]))] + Cards(repos[1..])
  }

  /** The repository container around the cards of the first six repositories. */
  function Render(repos: seq<Repo>): (r: seq<Token>)
    ensures 2 <= |r| <= MaxCards + 2
    ensures r[0] == Open(RepoContainer) && r[|r| - 1] == Close
  {
    [Open(RepoContainer)] + Cards(Slice(repos, MaxCards)) + [Close]
  }

  lemma {:induction false} CardsLayout(repos: seq<Repo>)
    ensures |Cards(repos)| == |repos|
    ensures forall i :: 0 <= i < |repos| ==> Cards(repos)[i] == RepoCard(CreateRepoCard(repos[i]))
    decreases |repos|
  {
    if repos != [] {
      var rest := Cards(repos[1..]);
      CardsLayout(repos[1..]);
      forall i | 0 < i < |repos|
        ensures Cards(repos)[i] == RepoCard(CreateRepoCard(repos[i]))
      {
        assert Cards(repos)[i] == rest[i - 1];
        assert repos[1..][i - 1] == repos[i];
      }
    }
  }

  /**
   * The container holds one card for each of the first min(6, |repos|)
   * repositories, in the order of the reply, and nothing else.
   */
  lemma Layout(repos: seq<Repo>)
    ensures var shown := if |repos| < MaxCards then |repos| else MaxCards;
      && |Render(repos)| == shown + 2
      && Render(repos)[0] == Open(RepoContainer)
      && Render(repos)[shown + 1] == Close
      && forall i :: 0 <= i < shown ==> Render(repos)[i + 1] == RepoCard(CreateRepoCard(repos[i]))
  {
    var shown := Slice(repos, MaxCards);
    var cards := Cards(shown);
    CardsLayout(shown);
    var t := [Open(RepoContainer)] + cards + [Close];
    assert Render(repos) == t;
    forall i | 0 <= i < |shown|
      ensures t[i + 1] == RepoCard(CreateRepoCard(repos[i]))
    {
      assert t[i + 1] == cards[i];
      assert shown[i] == repos[i];
    }
  }

  /** Repositories after the sixth are never shown: appending to six or more changes nothing. */
  lemma LaterReposIgnored(repos: seq<Repo>, more: seq<Repo>)
    requires |repos| >= MaxCards
    ensures Render(repos + more) == Render(repos)
  {
    assert Slice(repos + more, MaxCards) == Slice(repos, MaxCards);
  }

  /**
   * A card shows the description fallback exactly when the description is
   * falsy or is itself the fallback text; likewise for the language.
   */
  lemma FallbackExactly(repo: Repo)
    ensures CreateRepoCard(repo).description == NoDescription
      <==> !Truthy(repo.description) || ToText(repo.description) == NoDescription
    ensures CreateRepoCard(repo).language == NoLanguage
      <==> !Truthy(repo.language) || ToText(repo.language) == NoLanguage
  {
  }

  /** A card shows the repository's name, star count and link, and its description and language texts. */
  lemma CardShowsFields(repo: Repo)
    ensures var c := CreateRepoCard(repo);
      && Contains(TokenHtml(RepoCard(c)), c.name)
      && Contains(TokenHtml(RepoCard(c)), c.description)
      && Contains(TokenHtml(RepoCard(c)), c.language)
      && Contains(TokenHtml(RepoCard(c)), c.stars)
      && Contains(TokenHtml(RepoCard(c)), c.url)
  {
    var c := CreateRepoCard(repo);
    var pieces := CardPieces(c);
    assert TokenHtml(RepoCard(c)) == Concat(pieces);
    ConcatShowsPiece(pieces, 2);
    ConcatShowsPiece(pieces, 5);
    ConcatShowsPiece(pieces, 8);
    ConcatShowsPiece(pieces, 11);
    ConcatShowsPiece(pieces, 14);
  }
}

=== FILE: results.dfy ===
/** The optional and fallible values the page script passes around. */
module Results {

  /** A value that may be missing: a JSON field that is absent or not an array. */
  datatype Option<+T> = None | Some(value: T)

  /** The outcome of a step that may throw: `Err` stands for the rejected promise. */
  datatype Result<+T, +E> = Ok(value: T) | Err(error: E)
}

=== FILE: sections.dfy ===
/**
 * Loading a section: the content request, the dispatch on the section name to
 * a renderer, and the error message that replaces the content when any step
 * fails.
 */
module Sections {
  import opened Results
  import opened JsValues
  import opened Payloads
  import opened Fragments
  import Experience
  import Photos
  import Projects

  /** Why a load ends on the error message; every one is caught the same way. */
  datatype Fault =
    | NotFound          // the content response is not ok
    | MalformedJson     // the content body does not parse
    | TypeError         // a field access on null, or `.map` on a non-array
    | ReposUnavailable  // the repository request rejects or returns no array

  /** What the content element shows after a failed load. */
  const ErrorHtml: string := "<p>Error loading content.</p>"

  const ContentDir: string := "content/"
  const JsonExt: string := ".json"
  const GitHubUsers: string := "https://api.github.com/users/"
  const ReposQuery: string := "/repos?sort=updated&direction=desc"

  /** The path a section's document is requested from; the section can be read back from it. */
  function ContentPath(section: string): (path: string)
    ensures |path| == |ContentDir| + |section| + |JsonExt|
    ensures path[..|ContentDir|] == ContentDir
    ensures path[|ContentDir|..|path| - |JsonExt|] == section
    ensures path[|path| - |JsonExt|..] == JsonExt
  {
    ContentDir + section + JsonExt
  }

  /** The URL of a user's repositories, most recently updated first; the user name can be read back from it. */
  function ReposUrl(username: Value): (url: string)
    ensures |url| == |GitHubUsers| + |ToText(username)| + |ReposQuery|
    ensures url[..|GitHubUsers|] == GitHubUsers
    ensures url[|GitHubUsers|..|url| - |ReposQuery|] == ToText(username)
    ensures url[|url| - |ReposQuery|..] == ReposQuery
  {
    GitHubUsers + ToText(username) + ReposQuery
  }

  /** The sections that have a renderer of their own; every other name shows `content` verbatim. */
  predicate HasOwnRenderer(section: string) {
    section == "experience" || section == "projects" || section == "photos" || section == "resume"
  }

  /**
   * `updateContent`: dispatch on the section name. `github` answers the
   * repository request the projects renderer makes.
   */
  function Render(section: string, doc: Document, github: string -> Option<seq<Repo>>): (r: Result<seq<Token>, Fault>)
    ensures r.Err? <==>
      && section != "resume"
      && (|| doc.JsonNull?
          || (section == "experience" && doc.data.jobs.None?)
          || (section == "photos" && doc.data.photos.None?)
          || (section == "projects" && github(ReposUrl(doc.data.githubUsername)).None?))
    ensures section == "experience" && doc.Object? && doc.data.jobs.Some? ==>
      r == Ok(Experience.Render(doc.data.jobs.value))
    ensures section == "photos" && doc.Object? && doc.data.photos.Some? ==>
      r == Ok(Photos.Render(doc.data.photos.value))
    ensures section == "projects" && doc.Object? && github(ReposUrl(doc.data.githubUsername)).Some? ==>
      r == Ok(Projects.Render(github(ReposUrl(doc.data.githubUsername)).value))
    ensures section == "resume" ==> r == Ok([ResumeFrame])
    ensures r.Err? && doc.JsonNull? ==> r.error == TypeError
  {
    if section == "experience" then
      match doc
      case JsonNull => Err(TypeError)
      case Object(data) =>
        match data.jobs
        case None => Err(TypeError)
        case Some(jobs) => Ok(Experience.Render(jobs))
    else if section == "projects" then
      match doc
      case JsonNull => Err(TypeError)
      case Object(data) =>
        match github(ReposUrl(data.githubUsername))
        case None => Err(ReposUnavailable)
        case Some(repos) => Ok(Projects.Render(repos))
    else if section == "photos" then
      match doc
      case JsonNull => Err(TypeError)
      case Object(data) =>
        match data.photos
        case None => Err(TypeError)
        case Some(photos) => Ok(Photos.Render(photos))
    else if section == "resume" then
      Ok([ResumeFrame])
    else
      match doc
      case JsonNull => Err(TypeError)
      case Object(data) => Ok([Markup(ToText(data.content))])
  }

  /** `loadContent` up to the assignment: request, status check, parse, render. */
  function Load(section: string, net: Net): (r: Result<seq<Token>, Fault>)
    ensures var response := net.content(ContentPath(section));
      && (!response.ok ==> r == Err(NotFound))
      && (response.ok && response.json.None? ==> r == Err(MalformedJson))
      && (response.ok && response.json.Some? ==> r == Render(section, response.json.value, net.github))
  {
    var response := net.content(ContentPath(section));
    if !response.ok then Err(NotFound)
    else
      match response.json
      case None => Err(MalformedJson)
      case Some(doc) => Render(section, doc, net.github)
  }

  /** The content element's markup after `loadContent(section)`. */
  function LoadContent(section: string, net: Net): (html: string)
    ensures !net.content(ContentPath(section)).ok ==> html == ErrorHtml
    ensures Load(section, net).Ok? ==> html == Html(Load(section, net).value)
  {
    match Load(section, net)
    case Ok(tokens) => Html(tokens)
    case Err(_) => ErrorHtml
  }

  /** The resume fragment is one fixed iframe, whatever the payload. */
  lemma ResumeIgnoresPayload(doc: Document, github: string -> Option<seq<Repo>>)
    ensures Render("resume", doc, github).Ok?
    ensures Html(Render("resume", doc, github).value)
      == "<iframe src=\"resume.pdf\" width=\"100%\" height=\"600px\"></iframe>"
  {
  }

  /**
   * Every section without a renderer of its own, `about` included, shows the
   * payload's `content` as markup unchanged; a null document throws.
   */
  lemma OtherSectionsVerbatim(section: string, doc: Document, github: string -> Option<seq<Repo>>)
    requires !HasOwnRenderer(section)
    ensures doc.JsonNull? ==> Render(section, doc, github) == Err(TypeError)
    ensures doc.Object? ==>
      (Render(section, doc, github).Ok? && Html(Render(section, doc, github).value) == ToText(doc.data.content))
  {
    if doc.Object? {
      var markup := Markup(ToText(doc.data.content));
      HtmlCons(markup, []);
      assert [markup] + [] == [markup];
      assert Html([]) == "";
    }
  }

  /**
   * Rendering fails exactly when the renderer touches a field it cannot use:
   * every section but `resume` reads the document, experience and photos need
   * their arrays, and projects needs the repository array.
   */
  lemma RenderFailsExactly(section: string, doc: Document, github: string -> Option<seq<Repo>>)
    ensures Render(section, doc, github).Err? <==>
      && section != "resume"
      && (|| doc.JsonNull?
          || (section == "experience" && doc.data.jobs.None?)
          || (section == "photos" && doc.data.photos.None?)
          || (section == "projects" && github(ReposUrl(doc.data.githubUsername)).None?))
  {
  }

  /** The kinds of token each renderer emits. */
  predicate EmittedBy(section: string, t: Token) {
    if section == "experience" then t.JobBlock? || t == Divider || t == JobGap
    else if section == "projects" then t == Open(RepoContainer) || t == Close || t.RepoCard?
    else if section == "photos" then t == Open(PhotoGrid) || t == Close || t.PhotoItem?
    else if section == "resume" then t == ResumeFrame
    else t.Markup?
  }

  /** A rendered fragment holds only tokens of its own section's renderer. */
  lemma TokensMatchSection(section: string, doc: Document, github: string -> Option<seq<Repo>>)
    ensures Render(section, doc, github).Ok? ==>
      forall p :: 0 <= p < |Render(section, doc, github).value| ==>
        EmittedBy(section, Render(section, doc, github).value[p])
  {
    if Render(section, doc, github).Ok? {
      if section == "experience" {
        ExperienceTokens(doc.data.jobs.value);
      } else if section == "projects" {
        ProjectsTokens(github(ReposUrl(doc.data.githubUsername)).value);
      } else if section == "photos" {
        PhotosTokens(doc.data.photos.value);
      }
    }
  }

  lemma ExperienceTokens(jobs: seq<Job>)
    ensures forall p :: 0 <= p < |Experience.Render(jobs)| ==> EmittedBy("experience", Experience.Render(jobs)[p])
  {
    var t := Experience.Render(jobs);
    Experience.Layout(jobs);
    forall p | 0 <= p < |t|
      ensures EmittedBy("experience", t[p])
    {
      assert t[p] == Experience.Expected(jobs, p);
    }
  }

  lemma ProjectsTokens(repos: seq<Repo>)
    ensures forall p :: 0 <= p < |Projects.Render(repos)| ==> EmittedBy("projects", Projects.Render(repos)[p])
  {
    var t := Projects.Render(repos);
    Projects.Layout(repos);
    forall p | 0 <= p < |t|
      ensures EmittedBy("projects", t[p])
    {
      if 0 < p < |t| - 1 {
        assert t[(p - 1) + 1] == RepoCard(Projects.CreateRepoCard(repos[p - 1]));
      }
    }
  }

  lemma PhotosTokens(photos: seq<Value>)
    ensures forall p :: 0 <= p < |Photos.Render(photos)| ==> EmittedBy("photos", Photos.Render(photos)[p])
  {
    var t := Photos.Render(photos);
    Photos.Layout(photos);
    forall p | 0 <= p < |t|
      ensures EmittedBy("photos", t[p])
    {
      if 0 < p <= |photos| {
        assert t[(p - 1) + 1] == PhotoItem(ToText(photos[p - 1]));
      }
    }
  }

  /**
   * A load ends on the fixed error message when the response is not ok, the
   * body does not parse, or rendering throws; otherwise on the rendered markup.
   */
  lemma LoadOutcome(section: string, net: Net)
    ensures var response := net.content(ContentPath(section));
      && (!response.ok || response.json.None? ==> LoadContent(section, net) == ErrorHtml)
      && (response.ok && response.json.Some? ==>
            match Render(section, response.json.value, net.github)
            case Ok(tokens) => LoadContent(section, net) == Html(tokens)
            case Err(_) => LoadContent(section, net) == ErrorHtml)
  {
  }

  /**
   * The content shown depends on the network only through the answer to the
   * section's own path and the answers to repository-list requests.
   */
  lemma LoadReadsOnlyItsPath(section: string, n1: Net, n2: Net)
    requires n1.content(ContentPath(section)) == n2.content(ContentPath(section))
    requires forall user :: n1.github(ReposUrl(user)) == n2.github(ReposUrl(user))
    ensures LoadContent(section, n1) == LoadContent(section, n2)
  {
    var response := n1.content(ContentPath(section));
    if response.ok && response.json.Some? {
      var doc := response.json.value;
      if doc.Object? {
        var url := ReposUrl(doc.data.githubUsername);
        assert n1.github(url) == n2.github(url);
      }
      assert Render(section, doc, n1.github) == Render(section, doc, n2.github);
    }
    assert Load(section, n1) == Load(section, n2);
  }
}
